=== FILE: README.md ===
# Drag-and-resize coordinate reconciliation (react-rnd `Rnd`), modelled in Dafny

`Rnd` is a React component. It makes a rectangular region both draggable (via
the drag engine, `react-draggable`) and resizable (via the resize engine,
`re-resizable`) inside a parent element. This project models the logic that
keeps the two engines consistent, as pure functions over numbers:

- the **offset resolver**: the translation between the drag engine's frame and the parent's frame;
- the **drag-bounds calculator**: the clamp rectangle handed to the drag engine;
- the **size-ceiling calculator**: max width/height during a resize toward a boundary.
  It includes the resolution of `"N%"` and `"Npx"` settings;
- the **coordinator**: the component state and its transitions at construction, mount, render,
  drag start, resize start, each resize step and resize stop.

DOM measurements (`getBoundingClientRect`, `offsetWidth`, `parentNode`,
`document.querySelector`, `getParentSize`) are inputs: a `Dom` record of
`Box` values, with `Option` for elements that may be missing. The drag
engine's `(x, y)` is part of the coordinator state, because the coordinator
writes it during a resize. Coordinates are `real`.

Size settings are `Extent = Num | NaN | Text`. This keeps the source's
mixed number/string comparisons (`max > Number(maxWidth) ? maxWidth : max`)
exact: a NaN or unreadable setting compares false, and a string setting the
boundary does not beat is passed on as the string. `Number(...)` on strings
is modelled for the empty string (0), an optional sign, and decimal digits
with an optional fraction.

Modules: `Options`, `Strings` (`endsWith`, first-occurrence `replace`, the
case-insensitive `/left/i` tests), `JsNumber`, `Geometry`, `Directions`,
`Calculators`, `Coordinator`.

Behaviour of `src/index.js` worth noting:

- When a `bounds` prop is set but the boundary or parent element is missing,
  resize start keeps the ceiling it had (src/index.js:282-286).
- Without a `bounds` prop, resize start sets the ceiling to the raw
  `maxWidth`/`maxHeight` props (src/index.js:333-336). Resize stop uses
  `getMaxSizesFromProps` (src/index.js:373). Under the component's default
  props both give the same ceiling (`Coordinator.UnboundedStartIsReset`).
- The ceiling can equal the configured maximum. On a tie, `max > Number(maxWidth)`
  is false and the boundary's room is kept (src/index.js:313).
- A percentage `maxHeight` is taken of the parent's width, not its height
  (src/index.js:300). `Coordinator.HeightPercentUsesParentWidth` shows the effect.
- After a resize step the host is told `x || draggable.x` (src/index.js:361-362).
  With state updates applied immediately, this is always the new drag position.
  `Coordinator.ResizeMove` states that.

## Model

| member | source | states |
|---|---|---|
| Calculators.OffsetFromParent | src/index.js:393-409 | zero offset when there is no parent; otherwise the region's screen left/top is the parent's plus the offset plus the drag position |
| Calculators.OffsetFollowsDrag | src/index.js:405-408 | the offset is recomputed from the current drag position: shifting the drag position by (dx, dy) shifts the offset by (-dx, -dy) |
| Calculators.OffsetIsLayoutConstant | src/index.js:393-409 | when the region moves rigidly with the drag engine, every drag position yields the same offset, the region's place in the parent's layout |
| Calculators.OffsetExample | src/index.js:405-407 | region 120, parent 100, x 15 gives left offset 5; x 0 gives 20 |
| Calculators.DragBounds | src/index.js:247-257 | left/top are the boundary's place in the parent minus the offset; right-left and bottom-top are the boundary's size minus the region's; right ≥ left exactly when the region is no wider than the boundary (same for height); a drag position is within the clamp exactly when the region lies inside the boundary |
| Coordinator.DragStart | src/index.js:231-259 | without a non-empty `bounds` prop, or with the boundary or parent element missing, the state is unchanged; otherwise the stored clamp admits exactly the drag positions at which the region, moved rigidly from its current place, lies inside the boundary; the clamp's left (top) is the drag position at which the region's left (top) edge meets the boundary's, even when the region does not fit; nothing but the clamp changes |
| Calculators.ResolveUnit | src/index.js:289-304 | numbers, empty strings and strings without a `%`/`px` suffix are left alone; a non-empty string ending in `%` or `px` always resolves to a number or NaN |
| Calculators.ResolvePercent | src/index.js:290-292 | for every number text t without a '%', "t%" resolves to Number(t) percent of the base (fractions, signs and leading zeros included), and to NaN when Number(t) is NaN |
| Calculators.ResolvePixels | src/index.js:293-295 | for every number text t without a 'p', "tpx" resolves to Number(t), and to NaN when Number(t) is NaN |
| Calculators.ResolveHalfOf400 | src/index.js:290-292 | "50%" of a 400-wide parent is 200 |
| Coordinator.HeightPercentUsesParentWidth | src/index.js:297-300 | a "50%" max height inside a 400 × 100 parent resolves to 200, more than the parent's height |
| Coordinator.ResolvedLimits | src/index.js:287-304 | unset maxima become MAX_SAFE_INTEGER; values without a `%`/`px` suffix pass through; suffixed strings become a number or NaN; both maxima, the height's included, are resolved against the parent's width |
| Coordinator.HeightPercentOfParentWidth | src/index.js:297-300 | for any t and any parent size, a max height of "t%" is t percent of the parent's width, or NaN when t is unreadable |
| Coordinator.ResolvedLimitsIgnoreParentHeight | src/index.js:297-300 | the resolved maxima, the max height included, do not depend on the parent's height |
| Calculators.Tighten | src/index.js:313 | the result is the configured value or the room; it reads as min(room, configured) when the configured value is a readable number, and is the room otherwise |
| Calculators.Ceilings | src/index.js:311-330 | each moving edge sets its dimension's ceiling; a dimension with no moving edge keeps its ceiling; at the ceiling the moving edge is still inside the target; the ceiling never exceeds a numeric configured maximum |
| Coordinator.ResizeStart | src/index.js:273-341 | the snapshot is the current drag position; without a `bounds` prop the ceiling is the props' maxima; with an unresolvable boundary it is unchanged; with a resolvable one each moving edge's ceiling is the smaller of the room left before the boundary on that side and the resolved configured maximum (the room alone when that maximum is NaN), so the edge stays inside the boundary at the ceiling |
| Coordinator.ResizeMove | src/index.js:343-365 | a left (top) handle sets x (y) to the snapshot minus the width (height) delta; other axes keep the drag position; snapshot, clamp and ceiling are unchanged; the reported position is the new drag position |
| Coordinator.OppositeEdgeStaysPut | src/index.js:351-358 | after a step with a left (top) handle, the region's right (bottom) edge is where it started; a right/bottom handle in a fresh gesture leaves the left (top) edge where it started |
| Coordinator.MovesFollowLatestDelta | src/index.js:351-358 | over any sequence of resize steps the snapshot, clamp and ceiling are unchanged and the position depends only on the latest delta |
| Coordinator.TopLeftExample | src/index.js:351-358 | from (10, 10) a top-left step with delta (5, 8) gives and reports (5, 2) |
| Coordinator.ResizeGesture | src/index.js:273-382 | after start, any steps and stop: the ceiling equals a bare stop's, the snapshot is the starting position, a right/bottom handle leaves the position unchanged, a left/top handle leaves it at start minus the last delta |
| Coordinator.ResizeStop | src/index.js:367-382 | the ceiling becomes the configured maxima, or MAX_SAFE_INTEGER where unset; position, snapshot and clamp are unchanged; the reported position is the drag position |
| Coordinator.ResizeStopIdempotent | src/index.js:373-374 | stopping twice equals stopping once |
| Coordinator.ResizeStopForgetsCeiling | src/index.js:373-374 | the state after a stop does not depend on the ceiling before it |
| Coordinator.MaxSizesFromProps | src/index.js:221-225 | an unset maximum becomes MAX_SAFE_INTEGER, a set one is passed through |
| Coordinator.WithDefaultProps | src/index.js:156-158 | after the default props both maxima are set, unset ones to MAX_SAFE_INTEGER, set ones and other props unchanged |
| Coordinator.MaxSizesIgnoreDefaults | src/index.js:221-225 | the default props make no difference to the configured maxima |
| Coordinator.Init | src/index.js:181-196 | the snapshot is the origin, the clamp is all zeros, the ceiling is the props' maxima, the drag engine starts at the controlled position, else the default position, else the origin |
| Coordinator.InitCeilingIsReset | src/index.js:194-195 | with the default props in force, the constructor's ceiling is the one a resize stop restores |
| Coordinator.UnboundedStartIsReset | src/index.js:332-336 | with the default props in force and no `bounds` prop, resize start leaves the ceiling a resize stop restores |
| Coordinator.Mount | src/index.js:206-215 | without a default position or parent nothing changes; otherwise the drag position moves back by the offset, which puts the region at the old drag position measured from the parent's corner |
| Coordinator.MountPlacesDefault | src/index.js:206-215 | a freshly built uncontrolled region with a default position sits, after mount, at that position relative to its parent, wherever the layout put it |
| Coordinator.Render | src/index.js:419-465 | an explicit position is translated so the region lands at it relative to the parent; the clamp is passed exactly when a non-empty `bounds` prop is set; the ceiling is passed through |
| Coordinator.RenderIndependentOfDrag | src/index.js:419-426 | a controlled position places the region at that position relative to its parent, wherever the drag engine currently stands |
| Directions.EdgesMatchNames | src/index.js:311-325 | HasLeft/HasRight/HasTop/HasBottom agree with the `/left/i`, `/right/i`, `/top/i`, `/bottom/i` tests on the eight handle names |
| Directions.OppositeEdgesExclusive | src/index.js:311-330 | no handle moves two opposite edges, so the later width (height) update never overrides the earlier one |
| Strings.RemoveFirst | src/index.js:291 | `replace(pat, '')` returns the string unchanged when `pat` does not occur in it; otherwise it removes the first occurrence and keeps everything before and after it |
| Strings.RemoveFirstOfSuffix | src/index.js:291 | removing `pat` from a string t followed by `pat` leaves exactly t, when no character of t can start `pat` |
| JsNumber.Digits | src/index.js:291 | the value of k decimal digits is below 10^k |
| JsNumber.DigitsOfShowNat | src/index.js:291 | reading back the decimal digits of n gives n |
| JsNumber.ParseShowNat | src/index.js:291 | `Number` of the decimal text of n is n |
| JsNumber.ParseNumber | src/index.js:291 | `Number("")` is 0, and a non-empty run of decimal digits reads as its value |
| JsNumber.ParseUnsigned | src/index.js:291 | a non-empty run of decimal digits reads as its value |
| JsNumber.ParseSigns | src/index.js:291 | a leading '-' negates the unsigned reading of the rest and keeps NaN as NaN; a leading '+' changes nothing |
| JsNumber.UnsignedRejects | src/index.js:291 | an unsigned literal holding a character that is neither a digit nor '.' reads as NaN |
| JsNumber.ParseNumberRejects | src/index.js:291 | `Number(s)` is NaN when some character of s is neither a digit nor '.', unless it is a leading sign |
| JsNumber.ParseFraction | src/index.js:291 | digits w, a '.', digits f (at least one digit overall) read as w + f / 10^k, where k is the number of digits in f |
| JsNumber.ToNumber | src/index.js:313 | `Number(x)` of a number is itself, of NaN is NaN, of the empty string is 0, of a digit string its value |
| JsNumber.ParseDecimalExample | src/index.js:291 | `Number("12.25")` is 12.25 |

## Left out

- Rendering, cursor and handle styles, class names and the props passed through to the engines (src/index.js:411-478 apart from position, bounds and the ceiling): presentation, not logic.
- The engines' own behaviour is not modelled. This covers clamping to the bounds, applying the ceiling, grid snapping, axis lock, minimum size, aspect ratio and the controlled `position` prop. Both are external libraries; the model produces only the values handed to them.
- DOM access is not modelled; measurements are inputs. The region's own element is taken as always mounted, so the `this.resizable` guards (src/index.js:228, 236, 249, 283, 311, 319) always pass. A parent node that is not an element is treated as absent. One `Option` stands for two different tests in the source. `getOffsetFromParent` tests only that a parent node exists (src/index.js:395); the drag and resize handlers test that it is an `HTMLElement` (src/index.js:238, 286). So a parent that is an SVG element gets a non-zero offset but no clamp and no ceiling, and the model cannot express that. A parent node with no `getBoundingClientRect` makes `getOffsetFromParent` throw, and the model treats it as absent instead. An invalid `bounds` selector (such as "#" or "a[") makes `document.querySelector` throw (src/index.js:237, 284) and aborts the handler; the model treats it as matching nothing, so the state is left unchanged and the gesture goes on unconstrained.
- Host callbacks are left out (`onDrag`, `onDragStop` and the notify calls in the other handlers). They are pass-through, and no return value is consulted.
- `e.stopPropagation()` is left out: event plumbing.
- React's `setState` batching is not modelled: updates are immediate assignments.
- Coordinator.Init: the drag engine's starting position (controlled position, else default, else origin) follows react-draggable's documented behaviour, which is not part of this model.
- `updateSize`, `updatePosition` and `getParentSize` (src/index.js:217-219, 384-391) are left out. They are one-line forwards to the engines.
- JsNumber.ParseNumber: does not model whitespace trimming, exponents, `0x`/`0o`/`0b` literals or "Infinity". JavaScript reads those as numbers; here they read as NaN.
- IEEE-754 rounding is not modelled: arithmetic is exact on `real`, and MAX_SAFE_INTEGER is an exact constant.

=== FILE: calculators.dfy ===
/** The three pure calculators of the coordinator: the offset resolver,
    the drag-bounds calculator and the size-ceiling calculator, with every
    DOM measurement passed in as a value. */
module Calculators {
  import opened Options
  import opened Strings
  import opened JsNumber
  import opened Geometry
  import opened Directions

  // ---------------------------------------------------------------------
  // Offset resolver (getOffsetFromParent)
  // ---------------------------------------------------------------------

  /** The translation between the drag engine's frame and the parent's frame,
      measured from the region's box `self` while the drag engine stands at
      `drag`. With no parent node the offset is zero. */
  function OffsetFromParent(parent: Option<Box>, self: Box, drag: Position): (r: Offset)
    ensures parent.None? ==> r == Offset(0.0, 0.0)
    ensures parent.Some? ==>
              && self.left == parent.value.left + r.left + drag.x
              && self.top == parent.value.top + r.top + drag.y
  {
    match parent
    case None => Offset(0.0, 0.0)
    case Some(p) => Offset(self.left - p.left - drag.x, self.top - p.top - drag.y)
  }

  /** The offset is recomputed from the current drag position on every call:
      the same measurements with a drag position moved by (dx, dy) give an
      offset moved by (-dx, -dy). */
  lemma OffsetFollowsDrag(parent: Box, self: Box, drag: Position, dx: real, dy: real)
    ensures OffsetFromParent(Some(parent), self, Position(drag.x + dx, drag.y + dy))
         == Offset(OffsetFromParent(Some(parent), self, drag).left - dx,
                   OffsetFromParent(Some(parent), self, drag).top - dy)
  {
  }

  /** The offset is a constant of the layout: as long as the region's box moves
      rigidly with the drag engine, every drag position yields the same offset. */
  lemma OffsetIsLayoutConstant(parent: Box, layout: Offset, drag: Position, size: Size)
    ensures OffsetFromParent(Some(parent), Placed(parent, layout, drag, size), drag) == layout
  {
  }

  /** Region at screen-left 120, parent at 100, drag x 15: the offset is 5;
      with drag x 0 and the same measurements it is 20. */
  lemma OffsetExample()
    ensures OffsetFromParent(Some(Box(100.0, 0.0, 0.0, 0.0)), Box(120.0, 0.0, 0.0, 0.0), Position(15.0, 0.0)).left == 5.0
    ensures OffsetFromParent(Some(Box(100.0, 0.0, 0.0, 0.0)), Box(120.0, 0.0, 0.0, 0.0), Position(0.0, 0.0)).left == 20.0
  {
  }

  // ---------------------------------------------------------------------
  // Drag-bounds calculator (the arithmetic of onDragStart)
  // ---------------------------------------------------------------------

  /** The drag clamp in the drag engine's own frame: the boundary's place in
      the parent, shifted back by the offset, with the right and bottom edges
      pulled in by the region's size. The drag engine then admits exactly the
      positions at which the region lies inside the boundary. */
  function DragBounds(boundary: Box, parent: Box, size: Size, off: Offset): (r: Bounds)
    ensures r.left == (boundary.left - parent.left) - off.left
    ensures r.top == (boundary.top - parent.top) - off.top
    ensures r.right - r.left == boundary.width - size.width
    ensures r.bottom - r.top == boundary.height - size.height
    ensures r.left <= r.right <==> size.width <= boundary.width
    ensures r.top <= r.bottom <==> size.height <= boundary.height
    ensures forall p :: Within(p, r) <==> Inside(Placed(parent, off, p, size), boundary)
  {
    var left := boundary.left - parent.left;
    var top := boundary.top - parent.top;
    Bounds(
      top - off.top,
      left + (boundary.width - size.width) - off.left,
      top + (boundary.height - size.height) - off.top,
      left - off.left)
  }

  // ---------------------------------------------------------------------
  // Size-ceiling calculator (the arithmetic of onResizeStart)
  // ---------------------------------------------------------------------

  /** A non-empty string setting with a unit suffix this calculator resolves. */
  predicate HasUnit(e: Extent) {
    e.Text? && |e.chars| > 0 && (EndsWith(e.chars, "%") || EndsWith(e.chars, "px"))
  }

  /** `base * (n / 100)`: n percent of `base`. */
  function PercentOf(base: real, n: real): real {
    base * (n / 100.0)
  }

  /** Resolves a configured max size: "N%" becomes N percent of `base`,
      "Npx" becomes N, and every other value (numbers, the empty string,
      strings with another suffix) is left as it is. An unreadable N gives NaN. */
  function ResolveUnit(e: Extent, base: real): (r: Extent)
    ensures !HasUnit(e) ==> r == e
    ensures HasUnit(e) ==> !r.Text?
  {
    match e
    case Text(s) =>
      if |s| == 0 then e
      else if EndsWith(s, "%") then
        match ParseNumber(RemoveFirst(s, "%"))
        case Some(n) => Num(PercentOf(base, n))
        case None => NaN
      else if EndsWith(s, "px") then
        match ParseNumber(RemoveFirst(s, "px"))
        case Some(n) => Num(n)
        case None => NaN
      else e
    case _ => e
  }

  /** "t%" resolves to `Number(t)` percent of the base, or to NaN when t is
      unreadable, for every t without a '%' of its own. */
  lemma {:induction false} ResolvePercent(t: string, base: real)
    requires forall i :: 0 <= i < |t| ==> t[i] != '%'
    ensures ParseNumber(t).Some? ==> ResolveUnit(Text(t + "%"), base) == Num(PercentOf(base, ParseNumber(t).value))
    ensures ParseNumber(t).None? ==> ResolveUnit(Text(t + "%"), base) == NaN
  {
    var s := t + "%";
    assert s[|s| - 1..] == "%";
    RemoveFirstOfSuffix(t, "%");
    var stripped := RemoveFirst(s, "%");
    assert stripped == t;
  }

  /** "tpx" resolves to `Number(t)`, or to NaN when t is unreadable, for every
      t without a 'p'. */
  lemma {:induction false} ResolvePixels(t: string, base: real)
    requires forall i :: 0 <= i < |t| ==> t[i] != 'p'
    ensures ParseNumber(t).Some? ==> ResolveUnit(Text(t + "px"), base) == Num(ParseNumber(t).value)
    ensures ParseNumber(t).None? ==> ResolveUnit(Text(t + "px"), base) == NaN
  {
    var s := t + "px";
    assert s[|s| - 1..] == "x";
    assert !EndsWith(s, "%");
    assert s[|s| - 2..] == "px";
    RemoveFirstOfSuffix(t, "px");
    var stripped := RemoveFirst(s, "px");
    assert stripped == t;
    assert ResolveUnit(Text(s), base) == (match ParseNumber(stripped) case Some(n) => Num(n) case None => NaN);
  }

  /** "50%" of a 400-wide parent is 200. */
  lemma ResolveHalfOf400()
    ensures ResolveUnit(Text("50%"), 400.0) == Num(200.0)
  {
    assert Digits("50") == 50 by {
      assert "50"[..1] == "5";
    }
    assert "50" + "%" == "50%";
    ResolvePercent("50", 400.0);
    assert PercentOf(400.0, 50.0) == 200.0;
  }

  /** `max > Number(cfg) ? cfg : max`: keeps the configured value when the
      boundary allows more than it, and the boundary's room otherwise. The
      result reads as the smaller of the two numbers, or as the room when the
      configured value is NaN or unreadable. */
  function Tighten(room: real, cfg: Extent): (r: Extent)
    ensures r == cfg || r == Num(room)
    ensures ToNumber(cfg).Some? ==> ToNumber(r) == Some(Min(room, ToNumber(cfg).value))
    ensures ToNumber(cfg).None? ==> r == Num(room)
  {
    match ToNumber(cfg)
    case Some(c) => if room > c then cfg else Num(room)
    case None => Num(room)
  }

  /** Room for the width when the left edge moves: the left edge may retreat
      to the target's left edge while the right edge stays put. */
  function LeftRoom(self: Box, target: Box, size: Size): real {
    self.left - target.left + size.width
  }

  /** Room for the width when the right edge moves: up to the target's right edge. */
  function RightRoom(self: Box, target: Box): real {
    target.width + (target.left - self.left)
  }

  function TopRoom(self: Box, target: Box, size: Size): real {
    self.top - target.top + size.height
  }

  function BottomRoom(self: Box, target: Box): real {
    target.height + (target.top - self.top)
  }

  /** The ceiling passed to the resize engine: either dimension may be unset. */
  datatype Ceiling = Ceiling(maxWidth: Option<Extent>, maxHeight: Option<Extent>)

  /** The numeric value a ceiling entry compares as, if it has one. */
  function NumericValue(e: Option<Extent>): Option<real> {
    match e
    case Some(v) => ToNumber(v)
    case None => None
  }

  /** The four per-edge updates of onResizeStart, applied in the source's order
      (left, right, top, bottom) to the current ceiling `cur`, against the
      resolved configured maxima `cfgW` and `cfgH`. */
  function Ceilings(dir: Direction, self: Box, target: Box, size: Size,
                    cfgW: Extent, cfgH: Extent, cur: Ceiling): (r: Ceiling)
    // The width ceiling is set by the moving horizontal edge, if any.
    ensures HasLeft(dir) ==> r.maxWidth == Some(Tighten(LeftRoom(self, target, size), cfgW))
    ensures HasRight(dir) ==> r.maxWidth == Some(Tighten(RightRoom(self, target), cfgW))
    ensures !HasLeft(dir) && !HasRight(dir) ==> r.maxWidth == cur.maxWidth
    ensures HasTop(dir) ==> r.maxHeight == Some(Tighten(TopRoom(self, target, size), cfgH))
    ensures HasBottom(dir) ==> r.maxHeight == Some(Tighten(BottomRoom(self, target), cfgH))
    ensures !HasTop(dir) && !HasBottom(dir) ==> r.maxHeight == cur.maxHeight
    // Growing up to the ceiling keeps the moving edge inside the target.
    ensures HasLeft(dir) ==>
              NumericValue(r.maxWidth).Some? && self.left + size.width - NumericValue(r.maxWidth).value >= target.left
    ensures HasRight(dir) ==>
              NumericValue(r.maxWidth).Some? && self.left + NumericValue(r.maxWidth).value <= target.left + target.width
    ensures HasTop(dir) ==>
              NumericValue(r.maxHeight).Some? && self.top + size.height - NumericValue(r.maxHeight).value >= target.top
    ensures HasBottom(dir) ==>
              NumericValue(r.maxHeight).Some? && self.top + NumericValue(r.maxHeight).value <= target.top + target.height
    // The ceiling is never looser than a numeric configured maximum.
    ensures (HasLeft(dir) || HasRight(dir)) && ToNumber(cfgW).Some? ==>
              NumericValue(r.maxWidth).Some? && NumericValue(r.maxWidth).value <= ToNumber(cfgW).value
    ensures (HasTop(dir) || HasBottom(dir)) && ToNumber(cfgH).Some? ==>
              NumericValue(r.maxHeight).Some? && NumericValue(r.maxHeight).value <= ToNumber(cfgH).value
  {
    OppositeEdgesExclusive(dir);
    var w1 := if HasLeft(dir) then Some(Tighten(LeftRoom(self, target, size), cfgW)) else cur.maxWidth;
    var w2 := if HasRight(dir) then Some(Tighten(RightRoom(self, target), cfgW)) else w1;
    var h1 := if HasTop(dir) then Some(Tighten(TopRoom(self, target, size), cfgH)) else cur.maxHeight;
    var h2 := if HasBottom(dir) then Some(Tighten(BottomRoom(self, target), cfgH)) else h1;
    Ceiling(w2, h2)
  }
}

=== FILE: coordinator.dfy ===
/** The coordinator: the component's state and its transitions at drag
    start, resize start, every resize step, resize stop, mount and render.
    The drag engine's (x, y) is part of the state, since the coordinator
    writes it during a resize. */
module Coordinator {
  import opened Options
  import opened JsNumber
  import opened Geometry
  import opened Directions
  import opened Calculators

  /** The props the coordination reads. `bounds` is "parent" or a selector. */
  datatype Props = Props(
    bounds: Option<string>,
    maxWidth: Option<Extent>,
    maxHeight: Option<Extent>,
    defaultPosition: Option<Position>,
    position: Option<Position>)

  /** The DOM as measured during one callback: the parent node (None when there
      is none or it is not an element), the region's own element, the element
      the `bounds` selector finds (if any), and the parent size the resize
      engine reports. */
  datatype Dom = Dom(parent: Option<Box>, self: Box, selected: Option<Box>, parentSize: Size)

  /** The component state (`original`, `bounds`, `maxWidth`, `maxHeight`)
      together with the drag engine's position. */
  datatype Rnd = Rnd(original: Position, bounds: Bounds, ceiling: Ceiling, drag: Position)

  // The `size` parameter of the transitions below is `this.resizable.size`,
  // which the resize engine reads from the offsetWidth/offsetHeight of the
  // same element measured as `dom.self`; it is passed separately so that the
  // calculators can be stated for the size the resize engine reports.

  /** A resize step's new state and the position reported to the host. */
  datatype Step = Step(state: Rnd, reported: Position)

  /** The configured maxima with "unset" already replaced. */
  datatype Limits = Limits(maxWidth: Extent, maxHeight: Extent)

  /** The component's default props: unset maxima become MAX_SAFE_INTEGER. */
  function WithDefaultProps(p: Props): (r: Props)
    ensures r.maxWidth.Some? && r.maxHeight.Some?
    ensures p.maxWidth.Some? ==> r.maxWidth == p.maxWidth
    ensures p.maxHeight.Some? ==> r.maxHeight == p.maxHeight
    ensures r.bounds == p.bounds && r.defaultPosition == p.defaultPosition && r.position == p.position
  {
    p.(maxWidth := Some(p.maxWidth.GetOr(Num(MAX_SAFE_INTEGER))),
       maxHeight := Some(p.maxHeight.GetOr(Num(MAX_SAFE_INTEGER))))
  }

  /** getMaxSizesFromProps: the configured maxima, MAX_SAFE_INTEGER when unset. */
  function MaxSizesFromProps(p: Props): (r: Limits)
    ensures p.maxWidth.None? ==> r.maxWidth == Num(MAX_SAFE_INTEGER)
    ensures p.maxHeight.None? ==> r.maxHeight == Num(MAX_SAFE_INTEGER)
    ensures p.maxWidth.Some? ==> r.maxWidth == p.maxWidth.value
    ensures p.maxHeight.Some? ==> r.maxHeight == p.maxHeight.value
  {
    Limits(p.maxWidth.GetOr(Num(MAX_SAFE_INTEGER)), p.maxHeight.GetOr(Num(MAX_SAFE_INTEGER)))
  }

  /** The default props make no difference to getMaxSizesFromProps. */
  lemma MaxSizesIgnoreDefaults(p: Props)
    ensures MaxSizesFromProps(WithDefaultProps(p)) == MaxSizesFromProps(p)
  {
  }

  /** The constructor's state. The drag engine starts at the controlled
      position if there is one (the offset is still zero before mount), else at
      the default position, else at the origin. */
  function Init(p: Props): (r: Rnd)
    ensures r.original == Origin && r.bounds == Bounds(0.0, 0.0, 0.0, 0.0)
    ensures r.ceiling == Ceiling(p.maxWidth, p.maxHeight)
    ensures p.position.Some? ==> r.drag == p.position.value
    ensures p.position.None? && p.defaultPosition.Some? ==> r.drag == p.defaultPosition.value
    ensures p.position.None? && p.defaultPosition.None? ==> r.drag == Origin
  {
    Rnd(Origin, Bounds(0.0, 0.0, 0.0, 0.0), Ceiling(p.maxWidth, p.maxHeight),
        p.position.GetOr(p.defaultPosition.GetOr(Origin)))
  }

  /** A `bounds` prop is in force only when it is a non-empty string. */
  predicate BoundsEnabled(p: Props) {
    p.bounds.Some? && p.bounds.value != ""
  }

  /** The boundary element: the parent for "parent", else the selector's match. */
  function BoundaryOf(p: Props, dom: Dom): Option<Box> {
    if p.bounds == Some("parent") then dom.parent else dom.selected
  }

  // ---------------------------------------------------------------------
  // Dragging
  // ---------------------------------------------------------------------

  /** onDragStart: with a `bounds` prop and both boundary and parent elements
      present, store a drag clamp that admits exactly the drag positions at
      which the region, moved rigidly from where it is now, lies inside the
      boundary. Otherwise nothing changes. */
  function DragStart(st: Rnd, p: Props, dom: Dom, size: Size): (r: Rnd)
    ensures r.original == st.original && r.ceiling == st.ceiling && r.drag == st.drag
    ensures !BoundsEnabled(p) ==> r == st
    ensures BoundaryOf(p, dom).None? || dom.parent.None? ==> r == st
    ensures BoundsEnabled(p) && BoundaryOf(p, dom).Some? && dom.parent.Some? ==>
              forall q :: Within(q, r.bounds) <==> Inside(Moved(dom.self, size, st.drag, q), BoundaryOf(p, dom).value)
    ensures BoundsEnabled(p) && BoundaryOf(p, dom).Some? && dom.parent.Some? ==>
              && r.bounds.right - r.bounds.left == BoundaryOf(p, dom).value.width - size.width
              && r.bounds.bottom - r.bounds.top == BoundaryOf(p, dom).value.height - size.height
    // The clamp's left (top) is the drag position at which the region's left
    // (top) edge meets the boundary's, whether or not the region fits.
    ensures BoundsEnabled(p) && BoundaryOf(p, dom).Some? && dom.parent.Some? ==>
              && r.bounds.left == st.drag.x + (BoundaryOf(p, dom).value.left - dom.self.left)
              && r.bounds.top == st.drag.y + (BoundaryOf(p, dom).value.top - dom.self.top)
  {
    if !BoundsEnabled(p) then st
    else match (BoundaryOf(p, dom), dom.parent)
      case (Some(boundary), Some(parent)) =>
        var off := OffsetFromParent(dom.parent, dom.self, st.drag);
        var b := DragBounds(boundary, parent, size, off);
        assert forall q :: Placed(parent, off, q, size) == Moved(dom.self, size, st.drag, q);
        st.(bounds := b)
      case _ => st
  }

  // ---------------------------------------------------------------------
  // Resizing
  // ---------------------------------------------------------------------

  /** The configured maxima with their units resolved. Both percentages are
      taken of the parent's WIDTH, the height's included. */
  function ResolvedLimits(p: Props, dom: Dom): (r: Limits)
    ensures p.maxWidth.None? ==> r.maxWidth == Num(MAX_SAFE_INTEGER)
    ensures p.maxHeight.None? ==> r.maxHeight == Num(MAX_SAFE_INTEGER)
    ensures p.maxWidth.Some? && !HasUnit(p.maxWidth.value) ==> r.maxWidth == p.maxWidth.value
    ensures p.maxHeight.Some? && !HasUnit(p.maxHeight.value) ==> r.maxHeight == p.maxHeight.value
    ensures p.maxWidth.Some? && HasUnit(p.maxWidth.value) ==> !r.maxWidth.Text?
    ensures p.maxHeight.Some? && HasUnit(p.maxHeight.value) ==> !r.maxHeight.Text?
    // Both are resolved against the parent's width.
    ensures p.maxWidth.Some? ==> r.maxWidth == ResolveUnit(p.maxWidth.value, dom.parentSize.width)
    ensures p.maxHeight.Some? ==> r.maxHeight == ResolveUnit(p.maxHeight.value, dom.parentSize.width)
  {
    var cfg := MaxSizesFromProps(p);
    Limits(ResolveUnit(cfg.maxWidth, dom.parentSize.width), ResolveUnit(cfg.maxHeight, dom.parentSize.width))
  }

  /** The resolved maxima depend on the parent's width only: its height
      never enters, not even for the max height. */
  lemma ResolvedLimitsIgnoreParentHeight(p: Props, dom: Dom, height: real)
    ensures ResolvedLimits(p, dom.(parentSize := Size(dom.parentSize.width, height))) == ResolvedLimits(p, dom)
  {
  }

  /** A max height of "50%" inside a 400 x 100 parent resolves to 200, twice
      the parent's height: percentages of the height are taken of the width. */
  lemma HeightPercentUsesParentWidth(p: Props, dom: Dom)
    requires p.maxHeight == Some(Text("50%"))
    requires dom.parentSize == Size(400.0, 100.0)
    ensures ResolvedLimits(p, dom).maxHeight == Num(200.0)
    ensures ResolvedLimits(p, dom).maxHeight.value > dom.parentSize.height
  {
    ResolveHalfOf400();
  }

  /** A max height of "t%" is t percent of the parent's WIDTH (or NaN when t
      is unreadable), for every t and every parent size. */
  lemma HeightPercentOfParentWidth(p: Props, dom: Dom, t: string)
    requires forall i :: 0 <= i < |t| ==> t[i] != '%'
    requires p.maxHeight == Some(Text(t + "%"))
    ensures ParseNumber(t).Some? ==>
              ResolvedLimits(p, dom).maxHeight == Num(PercentOf(dom.parentSize.width, ParseNumber(t).value))
    ensures ParseNumber(t).None? ==> ResolvedLimits(p, dom).maxHeight == NaN
  {
    ResolvePercent(t, dom.parentSize.width);
  }

  /** The boundary is resolvable for a resize or drag that starts now. */
  predicate Resolvable(p: Props, dom: Dom) {
    BoundsEnabled(p) && BoundaryOf(p, dom).Some? && dom.parent.Some?
  }

  /** onResizeStart: snapshot the drag position; with a resolvable boundary,
      tighten the ceiling of each moving edge to the room left before the
      boundary; with no `bounds` prop, reset the ceiling to the props. */
  function ResizeStart(st: Rnd, p: Props, dom: Dom, size: Size, dir: Direction): (r: Rnd)
    ensures r.original == st.drag && r.drag == st.drag && r.bounds == st.bounds
    ensures !BoundsEnabled(p) ==> r.ceiling == Ceiling(p.maxWidth, p.maxHeight)
    ensures BoundsEnabled(p) && !Resolvable(p, dom) ==> r.ceiling == st.ceiling
    ensures Resolvable(p, dom) && !HasLeft(dir) && !HasRight(dir) ==> r.ceiling.maxWidth == st.ceiling.maxWidth
    ensures Resolvable(p, dom) && !HasTop(dir) && !HasBottom(dir) ==> r.ceiling.maxHeight == st.ceiling.maxHeight
    // The moving edge cannot pass the boundary ...
    ensures Resolvable(p, dom) && HasLeft(dir) ==>
              NumericValue(r.ceiling.maxWidth).Some? &&
              dom.self.left + size.width - NumericValue(r.ceiling.maxWidth).value >= BoundaryOf(p, dom).value.left
    ensures Resolvable(p, dom) && HasRight(dir) ==>
              NumericValue(r.ceiling.maxWidth).Some? &&
              dom.self.left + NumericValue(r.ceiling.maxWidth).value
                <= BoundaryOf(p, dom).value.left + BoundaryOf(p, dom).value.width
    ensures Resolvable(p, dom) && HasTop(dir) ==>
              NumericValue(r.ceiling.maxHeight).Some? &&
              dom.self.top + size.height - NumericValue(r.ceiling.maxHeight).value >= BoundaryOf(p, dom).value.top
    ensures Resolvable(p, dom) && HasBottom(dir) ==>
              NumericValue(r.ceiling.maxHeight).Some? &&
              dom.self.top + NumericValue(r.ceiling.maxHeight).value
                <= BoundaryOf(p, dom).value.top + BoundaryOf(p, dom).value.height
    // ... each moving edge's ceiling is min(room, configured maximum) ...
    ensures Resolvable(p, dom) && HasLeft(dir) ==>
              r.ceiling.maxWidth == Some(Tighten(LeftRoom(dom.self, BoundaryOf(p, dom).value, size), ResolvedLimits(p, dom).maxWidth))
    ensures Resolvable(p, dom) && HasRight(dir) ==>
              r.ceiling.maxWidth == Some(Tighten(RightRoom(dom.self, BoundaryOf(p, dom).value), ResolvedLimits(p, dom).maxWidth))
    ensures Resolvable(p, dom) && HasTop(dir) ==>
              r.ceiling.maxHeight == Some(Tighten(TopRoom(dom.self, BoundaryOf(p, dom).value, size), ResolvedLimits(p, dom).maxHeight))
    ensures Resolvable(p, dom) && HasBottom(dir) ==>
              r.ceiling.maxHeight == Some(Tighten(BottomRoom(dom.self, BoundaryOf(p, dom).value), ResolvedLimits(p, dom).maxHeight))
    // ... and the ceiling is never looser than a numeric configured maximum.
    ensures Resolvable(p, dom) && (HasLeft(dir) || HasRight(dir)) && ToNumber(ResolvedLimits(p, dom).maxWidth).Some? ==>
              NumericValue(r.ceiling.maxWidth).Some? &&
              NumericValue(r.ceiling.maxWidth).value <= ToNumber(ResolvedLimits(p, dom).maxWidth).value
    ensures Resolvable(p, dom) && (HasTop(dir) || HasBottom(dir)) && ToNumber(ResolvedLimits(p, dom).maxHeight).Some? ==>
              NumericValue(r.ceiling.maxHeight).Some? &&
              NumericValue(r.ceiling.maxHeight).value <= ToNumber(ResolvedLimits(p, dom).maxHeight).value
  {
    var snap := st.(original := st.drag);
    if BoundsEnabled(p) then
      match (BoundaryOf(p, dom), dom.parent)
      case (Some(target), Some(_)) =>
        var cfg := ResolvedLimits(p, dom);
        snap.(ceiling := Ceilings(dir, dom.self, target, size, cfg.maxWidth, cfg.maxHeight, snap.ceiling))
      case _ => snap
    else snap.(ceiling := Ceiling(p.maxWidth, p.maxHeight))
  }

  /** onResize: a handle that moves the left (top) edge re-derives x (y) from
      the snapshot minus the width (height) delta, so the opposite edge stays
      put; other axes keep the drag engine's value. The host is told
      `x || draggable.x`, which is the new drag position. */
  function ResizeMove(st: Rnd, dir: Direction, delta: Size): (r: Step)
    ensures r.state.original == st.original && r.state.bounds == st.bounds && r.state.ceiling == st.ceiling
    ensures HasLeft(dir) ==> r.state.drag.x == st.original.x - delta.width
    ensures !HasLeft(dir) ==> r.state.drag.x == st.drag.x
    ensures HasTop(dir) ==> r.state.drag.y == st.original.y - delta.height
    ensures !HasTop(dir) ==> r.state.drag.y == st.drag.y
    ensures r.reported == r.state.drag
  {
    var x := if HasLeft(dir) then Some(st.original.x - delta.width) else None;
    var y := if HasTop(dir) then Some(st.original.y - delta.height) else None;
    var next := st.(drag := Position(x.GetOr(st.drag.x), y.GetOr(st.drag.y)));
    // `x || this.draggable.state.x`: 0 is falsy, so it falls back to the engine.
    var rx := if x.Some? && x.value != 0.0 then x.value else next.drag.x;
    var ry := if y.Some? && y.value != 0.0 then y.value else next.drag.y;
    Step(next, Position(rx, ry))
  }

  /** onResizeStop: restore the configured maxima (MAX_SAFE_INTEGER when unset),
      whatever ceiling the gesture used, and report the drag position. */
  function ResizeStop(st: Rnd, p: Props): (r: Step)
    ensures r.state.original == st.original && r.state.bounds == st.bounds && r.state.drag == st.drag
    ensures r.state.ceiling.maxWidth == Some(if p.maxWidth.Some? then p.maxWidth.value else Num(MAX_SAFE_INTEGER))
    ensures r.state.ceiling.maxHeight == Some(if p.maxHeight.Some? then p.maxHeight.value else Num(MAX_SAFE_INTEGER))
    ensures r.reported == st.drag
  {
    var cfg := MaxSizesFromProps(p);
    Step(st.(ceiling := Ceiling(Some(cfg.maxWidth), Some(cfg.maxHeight))), st.drag)
  }

  /** Stopping twice is the same as stopping once. */
  lemma ResizeStopIdempotent(st: Rnd, p: Props)
    ensures ResizeStop(ResizeStop(st, p).state, p) == ResizeStop(st, p)
  {
  }

  /** The ceiling after a stop does not depend on the ceiling before it. */
  lemma ResizeStopForgetsCeiling(st: Rnd, c: Ceiling, p: Props)
    ensures ResizeStop(st.(ceiling := c), p).state == ResizeStop(st, p).state
  {
  }

  /** With the default props in place, the constructor leaves the ceiling a
      resize stop restores. */
  lemma InitCeilingIsReset(p: Props, st: Rnd)
    ensures Init(WithDefaultProps(p)).ceiling == ResizeStop(st, p).state.ceiling
  {
  }

  /** With the default props in place and no `bounds` prop, a resize start
      leaves the ceiling a resize stop restores. */
  lemma UnboundedStartIsReset(p: Props, st: Rnd, dom: Dom, size: Size, dir: Direction)
    requires !BoundsEnabled(p)
    ensures ResizeStart(st, WithDefaultProps(p), dom, size, dir).ceiling == ResizeStop(st, p).state.ceiling
  {
  }

  /** Why a left/top handle moves the origin: the region was measured as
      `start` at the snapshot position; after a step with delta `delta` its
      width and height have grown by the delta, and its right (bottom) edge is
      still where it started when the left (top) edge is the one moving. */
  lemma OppositeEdgeStaysPut(st: Rnd, dir: Direction, delta: Size, start: Box)
    ensures var after := Moved(start, Size(start.width + delta.width, start.height + delta.height),
                               st.original, ResizeMove(st, dir, delta).state.drag);
            && (HasLeft(dir) ==> after.left + after.width == start.left + start.width)
            && (HasTop(dir) ==> after.top + after.height == start.top + start.height)
            && (!HasLeft(dir) && st.drag == st.original ==> after.left == start.left)
            && (!HasTop(dir) && st.drag == st.original ==> after.top == start.top)
  {
  }

  /** The resize steps of one gesture, applied in order. */
  function Moves(st: Rnd, dir: Direction, deltas: seq<Size>): Rnd
    decreases |deltas|
  {
    if |deltas| == 0 then st else Moves(ResizeMove(st, dir, deltas[0]).state, dir, deltas[1..])
  }

  /** During a gesture the snapshot never changes and the position depends
      only on the latest delta, never on the earlier ones. */
  lemma {:induction false} MovesFollowLatestDelta(st: Rnd, dir: Direction, deltas: seq<Size>)
    ensures Moves(st, dir, deltas).original == st.original
    ensures Moves(st, dir, deltas).bounds == st.bounds
    ensures Moves(st, dir, deltas).ceiling == st.ceiling
    ensures |deltas| > 0 && HasLeft(dir) ==> Moves(st, dir, deltas).drag.x == st.original.x - deltas[|deltas| - 1].width
    ensures |deltas| > 0 && HasTop(dir) ==> Moves(st, dir, deltas).drag.y == st.original.y - deltas[|deltas| - 1].height
    ensures |deltas| == 0 || !HasLeft(dir) ==> Moves(st, dir, deltas).drag.x == st.drag.x
    ensures |deltas| == 0 || !HasTop(dir) ==> Moves(st, dir, deltas).drag.y == st.drag.y
    decreases |deltas|
  {
    if |deltas| > 0 {
      var next := ResizeMove(st, dir, deltas[0]).state;
      MovesFollowLatestDelta(next, dir, deltas[1..]);
      if |deltas| > 1 {
        assert deltas[1..][|deltas[1..]| - 1] == deltas[|deltas| - 1];
      }
    }
  }

  /** A whole resize gesture (start, steps, stop): the ceiling ends where a
      bare stop would put it, a right/bottom handle never moves the region,
      and a left/top handle leaves it at the snapshot minus the last delta. */
  lemma {:induction false} ResizeGesture(st: Rnd, p: Props, dom: Dom, size: Size, dir: Direction, deltas: seq<Size>)
    ensures var last := ResizeStop(Moves(ResizeStart(st, p, dom, size, dir), dir, deltas), p).state;
            && last.ceiling == ResizeStop(st, p).state.ceiling
            && last.bounds == st.bounds
            && last.original == st.drag
            && (!HasLeft(dir) ==> last.drag.x == st.drag.x)
            && (!HasTop(dir) ==> last.drag.y == st.drag.y)
            && (|deltas| > 0 && HasLeft(dir) ==> last.drag.x == st.drag.x - deltas[|deltas| - 1].width)
            && (|deltas| > 0 && HasTop(dir) ==> last.drag.y == st.drag.y - deltas[|deltas| - 1].height)
  {
    MovesFollowLatestDelta(ResizeStart(st, p, dom, size, dir), dir, deltas);
  }

  /** From (10, 10), a top-left step with delta (5, 8) puts the region at (5, 2)
      and reports (5, 2). */
  lemma TopLeftExample(st: Rnd, p: Props, dom: Dom, size: Size)
    requires st.drag == Position(10.0, 10.0)
    ensures var s := ResizeMove(ResizeStart(st, p, dom, size, TopLeft), TopLeft, Size(5.0, 8.0));
            s.state.drag == Position(5.0, 2.0) && s.reported == Position(5.0, 2.0)
  {
  }

  // ---------------------------------------------------------------------
  // Mount and render
  // ---------------------------------------------------------------------

  /** componentDidMount: with a default position, move the drag engine back by
      the offset, so that the region ends up at the default position measured
      from the parent's corner rather than from its own place in the layout. */
  function Mount(st: Rnd, p: Props, dom: Dom): (r: Rnd)
    ensures r.original == st.original && r.bounds == st.bounds && r.ceiling == st.ceiling
    ensures p.defaultPosition.None? || dom.parent.None? ==> r == st
    ensures p.defaultPosition.Some? && dom.parent.Some? ==>
              && dom.self.left + (r.drag.x - st.drag.x) == dom.parent.value.left + st.drag.x
              && dom.self.top + (r.drag.y - st.drag.y) == dom.parent.value.top + st.drag.y
  {
    if p.defaultPosition.Some? then
      var off := OffsetFromParent(dom.parent, dom.self, st.drag);
      st.(drag := Position(st.drag.x - off.left, st.drag.y - off.top))
    else st
  }

  /** A freshly constructed uncontrolled region with a default position sits,
      after mount, at that position relative to its parent. */
  lemma MountPlacesDefault(p: Props, parent: Box, layout: Offset, size: Size, selected: Option<Box>, parentSize: Size)
    requires p.defaultPosition.Some? && p.position.None?
    ensures var st := Init(p);
            var dom := Dom(Some(parent), Placed(parent, layout, st.drag, size), selected, parentSize);
            var placed := Placed(parent, layout, Mount(st, p, dom).drag, size);
            placed.left == parent.left + p.defaultPosition.value.x && placed.top == parent.top + p.defaultPosition.value.y
  {
  }

  /** What render hands to the two engines. */
  datatype View = View(position: Option<Position>, bounds: Option<Bounds>, maxWidth: Option<Extent>, maxHeight: Option<Extent>)

  /** render: an explicit `position` prop is translated by the offset into the
      drag engine's frame, so that it is honoured relative to the parent; the
      drag clamp is passed only under a `bounds` prop; the ceiling is passed as is. */
  function Render(st: Rnd, p: Props, dom: Dom): (r: View)
    ensures r.position.Some? <==> p.position.Some?
    ensures p.position.Some? && dom.parent.Some? ==>
              && dom.self.left + (r.position.value.x - st.drag.x) == dom.parent.value.left + p.position.value.x
              && dom.self.top + (r.position.value.y - st.drag.y) == dom.parent.value.top + p.position.value.y
    ensures p.position.Some? && dom.parent.None? ==> r.position == p.position
    ensures BoundsEnabled(p) <==> r.bounds.Some?
    ensures BoundsEnabled(p) ==> r.bounds == Some(st.bounds)
    ensures r.maxWidth == st.ceiling.maxWidth && r.maxHeight == st.ceiling.maxHeight
  {
    var off := OffsetFromParent(dom.parent, dom.self, st.drag);
    var position := match p.position
      case Some(q) => Some(Position(q.x - off.left, q.y - off.top))
      case None => None;
    View(position, if BoundsEnabled(p) then Some(st.bounds) else None, st.ceiling.maxWidth, st.ceiling.maxHeight)
  }

  /** Rendering the same controlled position places the region at the same
      place in its parent, wherever the drag engine currently stands. */
  lemma RenderIndependentOfDrag(st: Rnd, p: Props, parent: Box, layout: Offset, size: Size,
                                selected: Option<Box>, parentSize: Size)
    requires p.position.Some?
    ensures var dom := Dom(Some(parent), Placed(parent, layout, st.drag, size), selected, parentSize);
            var placed := Placed(parent, layout, Render(st, p, dom).position.value, size);
            placed.left == parent.left + p.position.value.x && placed.top == parent.top + p.position.value.y
  {
  }
}

=== FILE: directions.dfy ===
/** The eight resize handles and the edge tests the source performs on
    their names with case-insensitive regular expressions. */
module Directions {
  import opened Strings

  datatype Direction =
    | Top | Right | Bottom | Left
    | TopRight | BottomRight | BottomLeft | TopLeft

  /** The name the resize engine passes for each handle. */
  function Name(d: Direction): string {
    match d
    case Top => "top"
    case Right => "right"
    case Bottom => "bottom"
    case Left => "left"
    case TopRight => "topRight"
    case BottomRight => "bottomRight"
    case BottomLeft => "bottomLeft"
    case TopLeft => "topLeft"
  }

  predicate HasLeft(d: Direction) {
    d == Left || d == TopLeft || d == BottomLeft
  }

  predicate HasRight(d: Direction) {
    d == Right || d == TopRight || d == BottomRight
  }

  predicate HasTop(d: Direction) {
    d == Top || d == TopLeft || d == TopRight
  }

  predicate HasBottom(d: Direction) {
    d == Bottom || d == BottomLeft || d == BottomRight
  }

  /** A pattern one of whose characters never occurs in `s` does not match it. */
  lemma MissingCharRulesOut(s: string, pat: string, k: nat)
    requires k < |pat|
    requires forall i :: 0 <= i < |s| ==> Lower(s[i]) != pat[k]
    ensures !ContainsIgnoringCase(s, pat)
  {
    forall i | 0 <= i <= |s| - |pat|
      ensures !MatchAt(s, pat, i)
    {
      assert LowerAll(s[i..i + |pat|])[k] == Lower(s[i + k]) != pat[k];
    }
  }

  /** The four edge tests on the name "top". */
  lemma TopNameTests()
    ensures !HasLeft(Top) && !ContainsIgnoringCase(Name(Top), "left")
    ensures !HasRight(Top) && !ContainsIgnoringCase(Name(Top), "right")
    ensures HasTop(Top) && ContainsIgnoringCase(Name(Top), "top")
    ensures !HasBottom(Top) && !ContainsIgnoringCase(Name(Top), "bottom")
  {
    MissingCharRulesOut("top", "left", 0);
    MissingCharRulesOut("top", "right", 0);
    assert LowerAll("top"[0..3]) == "top";
    assert MatchAt("top", "top", 0);
    MissingCharRulesOut("top", "bottom", 0);
  }

  /** The four edge tests on the name "right". */
  lemma RightNameTests()
    ensures !HasLeft(Right) && !ContainsIgnoringCase(Name(Right), "left")
    ensures HasRight(Right) && ContainsIgnoringCase(Name(Right), "right")
    ensures !HasTop(Right) && !ContainsIgnoringCase(Name(Right), "top")
    ensures !HasBottom(Right) && !ContainsIgnoringCase(Name(Right), "bottom")
  {
    MissingCharRulesOut("right", "left", 0);
    assert LowerAll("right"[0..5]) == "right";
    assert MatchAt("right", "right", 0);
    MissingCharRulesOut("right", "top", 1);
    MissingCharRulesOut("right", "bottom", 0);
  }

  /** The four edge tests on the name "bottom". */
  lemma BottomNameTests()
    ensures !HasLeft(Bottom) && !ContainsIgnoringCase(Name(Bottom), "left")
    ensures !HasRight(Bottom) && !ContainsIgnoringCase(Name(Bottom), "right")
    ensures !HasTop(Bottom) && !ContainsIgnoringCase(Name(Bottom), "top")
    ensures HasBottom(Bottom) && ContainsIgnoringCase(Name(Bottom), "bottom")
  {
    MissingCharRulesOut("bottom", "left", 0);
    MissingCharRulesOut("bottom", "right", 0);
    MissingCharRulesOut("bottom", "top", 2);
    assert LowerAll("bottom"[0..6]) == "bottom";
    assert MatchAt("bottom", "bottom", 0);
  }

  /** The four edge tests on the name "left". */
  lemma LeftNameTests()
    ensures HasLeft(Left) && ContainsIgnoringCase(Name(Left), "left")
    ensures !HasRight(Left) && !ContainsIgnoringCase(Name(Left), "right")
    ensures !HasTop(Left) && !ContainsIgnoringCase(Name(Left), "top")
    ensures !HasBottom(Left) && !ContainsIgnoringCase(Name(Left), "bottom")
  {
    assert LowerAll("left"[0..4]) == "left";
    assert MatchAt("left", "left", 0);
    MissingCharRulesOut("left", "right", 0);
    MissingCharRulesOut("left", "top", 1);
    MissingCharRulesOut("left", "bottom", 0);
  }

  /** The four edge tests on the name "topRight". */
  lemma TopRightNameTests()
    ensures !HasLeft(TopRight) && !ContainsIgnoringCase(Name(TopRight), "left")
    ensures HasRight(TopRight) && ContainsIgnoringCase(Name(TopRight), "right")
    ensures HasTop(TopRight) && ContainsIgnoringCase(Name(TopRight), "top")
    ensures !HasBottom(TopRight) && !ContainsIgnoringCase(Name(TopRight), "bottom")
  {
    MissingCharRulesOut("topRight", "left", 0);
    assert LowerAll("topRight"[3..8]) == "right";
    assert MatchAt("topRight", "right", 3);
    assert LowerAll("topRight"[0..3]) == "top";
    assert MatchAt("topRight", "top", 0);
    MissingCharRulesOut("topRight", "bottom", 0);
  }

  /** The four edge tests on the name "bottomRight". */
  lemma BottomRightNameTests()
    ensures !HasLeft(BottomRight) && !ContainsIgnoringCase(Name(BottomRight), "left")
    ensures HasRight(BottomRight) && ContainsIgnoringCase(Name(BottomRight), "right")
    ensures !HasTop(BottomRight) && !ContainsIgnoringCase(Name(BottomRight), "top")
    ensures HasBottom(BottomRight) && ContainsIgnoringCase(Name(BottomRight), "bottom")
  {
    MissingCharRulesOut("bottomRight", "left", 0);
    assert LowerAll("bottomRight"[6..11]) == "right";
    assert MatchAt("bottomRight", "right", 6);
    MissingCharRulesOut("bottomRight", "top", 2);
    assert LowerAll("bottomRight"[0..6]) == "bottom";
    assert MatchAt("bottomRight", "bottom", 0);
  }

  /** The four edge tests on the name "bottomLeft". */
  lemma BottomLeftNameTests()
    ensures HasLeft(BottomLeft) && ContainsIgnoringCase(Name(BottomLeft), "left")
    ensures !HasRight(BottomLeft) && !ContainsIgnoringCase(Name(BottomLeft), "right")
    ensures !HasTop(BottomLeft) && !ContainsIgnoringCase(Name(BottomLeft), "top")
    ensures HasBottom(BottomLeft) && ContainsIgnoringCase(Name(BottomLeft), "bottom")
  {
    assert LowerAll("bottomLeft"[6..10]) == "left";
    assert MatchAt("bottomLeft", "left", 6);
    MissingCharRulesOut("bottomLeft", "right", 0);
    MissingCharRulesOut("bottomLeft", "top", 2);
    assert LowerAll("bottomLeft"[0..6]) == "bottom";
    assert MatchAt("bottomLeft", "bottom", 0);
  }

  /** The four edge tests on the name "topLeft". */
  lemma TopLeftNameTests()
    ensures HasLeft(TopLeft) && ContainsIgnoringCase(Name(TopLeft), "left")
    ensures !HasRight(TopLeft) && !ContainsIgnoringCase(Name(TopLeft), "right")
    ensures HasTop(TopLeft) && ContainsIgnoringCase(Name(TopLeft), "top")
    ensures !HasBottom(TopLeft) && !ContainsIgnoringCase(Name(TopLeft), "bottom")
  {
    assert LowerAll("topLeft"[3..7]) == "left";
    assert MatchAt("topLeft", "left", 3);
    MissingCharRulesOut("topLeft", "right", 0);
    assert LowerAll("topLeft"[0..3]) == "top";
    assert MatchAt("topLeft", "top", 0);
    MissingCharRulesOut("topLeft", "bottom", 0);
  }

  /** The edge predicates are the source's `/left/i`, `/right/i`, `/top/i`
      and `/bottom/i` tests on the handle names. */
  lemma EdgesMatchNames(d: Direction)
    ensures HasLeft(d) <==> ContainsIgnoringCase(Name(d), "left")
    ensures HasRight(d) <==> ContainsIgnoringCase(Name(d), "right")
    ensures HasTop(d) <==> ContainsIgnoringCase(Name(d), "top")
    ensures HasBottom(d) <==> ContainsIgnoringCase(Name(d), "bottom")
  {
    match d
    case Top => TopNameTests();
    case Right => RightNameTests();
    case Bottom => BottomNameTests();
    case Left => LeftNameTests();
    case TopRight => TopRightNameTests();
    case BottomRight => BottomRightNameTests();
    case BottomLeft => BottomLeftNameTests();
    case TopLeft => TopLeftNameTests();
  }

  /** No handle moves two opposite edges, so at most one width rule and one
      height rule apply to any resize. */
  lemma OppositeEdgesExclusive(d: Direction)
    ensures !(HasLeft(d) && HasRight(d))
    ensures !(HasTop(d) && HasBottom(d))
  {
  }
}

=== FILE: geometry.dfy ===
/** The geometry records shared by the calculators and the coordinator.
    Screen coordinates grow rightwards and downwards. */
module Geometry {

  /** The region's origin as the drag engine stores it. */
  datatype Position = Position(x: real, y: real)

  /** The region's current width and height as the resize engine reports them. */
  datatype Size = Size(width: real, height: real)

  /** A measured element: the left/top of its bounding client rectangle and
      its offsetWidth/offsetHeight. */
  datatype Box = Box(left: real, top: real, width: real, height: real)

  /** The constant translation between the drag engine's frame and the parent's frame. */
  datatype Offset = Offset(left: real, top: real)

  /** The drag clamp handed to the drag engine: the legal range of its (x, y). */
  datatype Bounds = Bounds(top: real, right: real, bottom: real, left: real)

  const Origin := Position(0.0, 0.0)

  /** The drag engine clamps (x, y) to this rectangle. */
  predicate Within(p: Position, b: Bounds) {
    b.left <= p.x <= b.right && b.top <= p.y <= b.bottom
  }

  /** `inner` lies entirely inside `outer`. */
  predicate Inside(inner: Box, outer: Box) {
    && outer.left <= inner.left
    && inner.left + inner.width <= outer.left + outer.width
    && outer.top <= inner.top
    && inner.top + inner.height <= outer.top + outer.height
  }

  /** Where a region of the given size sits on screen when the drag engine
      moves it from position `from` (where it was measured as `at`) to `to`:
      the drag engine translates the region rigidly. */
  function Moved(at: Box, size: Size, from: Position, to: Position): Box {
    Box(at.left + (to.x - from.x), at.top + (to.y - from.y), size.width, size.height)
  }

  /** The screen box of a region laid out at `layout` inside `parent` (its
      place when the drag engine is at the origin) and dragged to `p`. */
  function Placed(parent: Box, layout: Offset, p: Position, size: Size): Box {
    Box(parent.left + layout.left + p.x, parent.top + layout.top + p.y, size.width, size.height)
  }

  function Min(a: real, b: real): real {
    if a <= b then a else b
  }
}

=== FILE: jsnumber.dfy ===
/** The numeric side of the size settings: JavaScript's `Number(...)`
    conversion on the strings a size setting can hold, and the
    number-or-string values themselves. */
module JsNumber {
  import opened Options

  /** `Number.MAX_SAFE_INTEGER`, the ceiling used when no max size is set. */
  const MAX_SAFE_INTEGER: real := 9007199254740991.0

  /** A size setting as JavaScript holds it: a number, the number NaN
      (every comparison with it is false), or a string such as "50%" or "300px". */
  datatype Extent = Num(value: real) | NaN | Text(chars: string)

  predicate IsDigit(c: char) {
    '0' <= c <= '9'
  }

  predicate AllDigits(s: string) {
    forall i :: 0 <= i < |s| ==> IsDigit(s[i])
  }

  function DigitValue(c: char): (d: nat)
    requires IsDigit(c)
    ensures d < 10
  {
    c as int - '0' as int
  }

  function DigitChar(d: nat): (c: char)
    requires d < 10
    ensures IsDigit(c) && DigitValue(c) == d
  {
    ('0' as int + d) as char
  }

  function Pow10(k: nat): (p: nat)
    ensures p >= 1
  {
    if k == 0 then 1 else 10 * Pow10(k - 1)
  }

  /** The value of a string of decimal digits; it always has fewer digits than
      the string has characters. */
  function Digits(s: string): (n: nat)
    requires AllDigits(s)
    ensures n < Pow10(|s|)
    decreases |s|
  {
    if |s| == 0 then 0
    else
      var prefix := Digits(s[..|s| - 1]);
      assert prefix * 10 <= (Pow10(|s| - 1) - 1) * 10;
      prefix * 10 + DigitValue(s[|s| - 1])
  }

  /** The decimal representation of a natural number, as `String(n)` writes it. */
  function ShowNat(n: nat): (s: string)
    ensures |s| > 0 && AllDigits(s)
  {
    if n < 10 then [DigitChar(n)] else ShowNat(n / 10) + [DigitChar(n % 10)]
  }

  /** The first index of `c` in `s`, if any. */
  function IndexOf(s: string, c: char): (r: Option<nat>)
    ensures r.Some? ==> r.value < |s| && s[r.value] == c && c !in s[..r.value]
    ensures r.None? ==> c !in s
  {
    if |s| == 0 then None
    else if s[0] == c then Some(0)
    else match IndexOf(s[1..], c)
      case None => None
      case Some(i) =>
        assert s[..i + 1] == [s[0]] + s[1..][..i];
        Some(i + 1)
  }

  /** The value of the digits `w` '.' `f`: w + f / 10^|f|. */
  function DecimalValue(w: string, f: string): real
    requires AllDigits(w) && AllDigits(f)
  {
    Digits(w) as real + Digits(f) as real / Pow10(|f|) as real
  }

  /** An unsigned decimal literal: digits, optionally with one '.' and a
      fraction, at least one digit overall ("5", "5.", ".5", "12.25").
      None is NaN. */
  function ParseUnsigned(s: string): (r: Option<real>)
    ensures |s| > 0 && AllDigits(s) ==> r == Some(Digits(s) as real)
  {
    assert AllDigits(s) ==> forall i :: 0 <= i < |s| ==> s[i] != '.';
    match IndexOf(s, '.')
    case None =>
      if |s| > 0 && AllDigits(s) then Some(Digits(s) as real) else None
    case Some(i) =>
      var whole, frac := s[..i], s[i + 1..];
      if |whole| + |frac| > 0 && AllDigits(whole) && AllDigits(frac)
      then Some(DecimalValue(whole, frac))
      else None
  }

  /** `Number(s)` for a string: the empty string is 0, a sign may lead,
      and an unreadable string is NaN (None). */
  function ParseNumber(s: string): (r: Option<real>)
    ensures |s| == 0 ==> r == Some(0.0)
    ensures |s| > 0 && AllDigits(s) ==> r == Some(Digits(s) as real)
  {
    if |s| == 0 then Some(0.0)
    else if s[0] == '-' then
      match ParseUnsigned(s[1..])
      case Some(v) => Some(-v)
      case None => None
    else if s[0] == '+' then ParseUnsigned(s[1..])
    else ParseUnsigned(s)
  }

  /** `Number(e)` for a size setting; None stands for NaN. */
  function ToNumber(e: Extent): (r: Option<real>)
    ensures e.Num? ==> r == Some(e.value)
    ensures e.NaN? ==> r.None?
    ensures e.Text? && |e.chars| == 0 ==> r == Some(0.0)
    ensures e.Text? && |e.chars| > 0 && AllDigits(e.chars) ==> r == Some(Digits(e.chars) as real)
  {
    match e
    case Num(v) => Some(v)
    case NaN => None
    case Text(s) => ParseNumber(s)
  }

  /** Reading the digits back gives the number that was written out. */
  lemma {:induction false} DigitsOfShowNat(n: nat)
    ensures Digits(ShowNat(n)) == n
  {
    if n >= 10 {
      var s := ShowNat(n);
      var head := ShowNat(n / 10);
      assert s[..|s| - 1] == head;
      DigitsOfShowNat(n / 10);
    }
  }

  /** `Number(String(n)) === n` for every natural number. */
  lemma ParseShowNat(n: nat)
    ensures ParseNumber(ShowNat(n)) == Some(n as real)
  {
    DigitsOfShowNat(n);
  }

  /** A leading '-' negates the unsigned reading of the rest (NaN stays NaN);
      a leading '+' leaves it as it is. */
  lemma ParseSigns(t: string)
    ensures ParseNumber("-" + t) == (match ParseUnsigned(t) case Some(v) => Some(-v) case None => None)
    ensures ParseNumber("+" + t) == ParseUnsigned(t)
  {
    assert ("-" + t)[1..] == t;
    assert ("+" + t)[1..] == t;
  }

  /** An unsigned literal with a character that is neither a digit nor '.'
      is unreadable: NaN. */
  lemma UnsignedRejects(u: string, k: nat)
    requires k < |u| && !IsDigit(u[k]) && u[k] != '.'
    ensures ParseUnsigned(u).None?
  {
    match IndexOf(u, '.')
    case None =>
      assert !AllDigits(u);
    case Some(i) =>
      if k < i {
        assert u[..i][k] == u[k];
      } else {
        assert u[i + 1..][k - i - 1] == u[k];
      }
  }

  /** `Number(s)` is NaN when some character is neither a digit nor '.',
      unless it is a sign in the first place. */
  lemma ParseNumberRejects(s: string, i: nat)
    requires i < |s| && !IsDigit(s[i]) && s[i] != '.'
    requires i == 0 ==> s[i] != '-' && s[i] != '+'
    ensures ParseNumber(s).None?
  {
    if s[0] == '-' || s[0] == '+' {
      assert s[1..][i - 1] == s[i];
      UnsignedRejects(s[1..], i - 1);
    } else {
      UnsignedRejects(s, i);
    }
  }

  /** In digits, a '.', and more digits, the first '.' is the one after `w`. */
  lemma FirstDotAfterDigits(w: string, f: string)
    requires AllDigits(w)
    ensures IndexOf(w + "." + f, '.') == Some(|w|)
  {
    var s := w + "." + f;
    var r := IndexOf(s, '.');
    assert s[|w|] == '.';
    assert s[..|w|] == w;
    assert forall i :: 0 <= i < |w| ==> s[i] != '.';
    assert forall k :: |w| < k <= |s| ==> s[..k][|w|] == '.';
  }

  /** The unsigned reading of digits, a '.', and digits. */
  lemma UnsignedFraction(w: string, f: string)
    requires AllDigits(w) && AllDigits(f) && |w| + |f| > 0
    ensures ParseUnsigned(w + "." + f) == Some(DecimalValue(w, f))
  {
    var s := w + "." + f;
    FirstDotAfterDigits(w, f);
    assert s[..|w|] == w;
    assert s[|w| + 1..] == f;
  }

  /** Digits `w`, a '.', digits `f` (at least one digit overall) read as
      w + f / 10^|f|. */
  lemma ParseFraction(w: string, f: string)
    requires AllDigits(w) && AllDigits(f) && |w| + |f| > 0
    ensures ParseNumber(w + "." + f) == Some(DecimalValue(w, f))
  {
    var s := w + "." + f;
    UnsignedFraction(w, f);
    assert s[0] == (if |w| > 0 then w[0] else '.');
  }

  /** A worked instance of the decimal reader: "12.25" is 12.25. */
  lemma ParseDecimalExample()
    ensures ParseNumber("12.25") == Some(12.25)
  {
    assert Digits("12") == 12 by {
      assert "12"[..1] == "1";
    }
    assert Digits("25") == 25 by {
      assert "25"[..1] == "2";
    }
    assert Pow10(2) == 100;
    assert "12" + "." + "25" == "12.25";
    ParseFraction("12", "25");
  }
}

=== FILE: options.dfy ===
/** An optional value: the model's stand-in for JavaScript's `undefined`
    and for DOM look-ups that may find nothing. */
module Options {

  datatype Option<+T> = None | Some(value: T) {

    /** The wrapped value, or `default` when there is none. */
    function GetOr(default: T): T {
      match this
      case Some(v) => v
      case None => default
    }
  }
}

=== FILE: strings.dfy ===
/** The two string operations the size settings are parsed with:
    `String.prototype.endsWith` and `String.prototype.replace(pattern, '')`
    for a string pattern, which removes only the FIRST occurrence. */
module Strings {

  predicate EndsWith(s: string, suffix: string) {
    |suffix| <= |s| && s[|s| - |suffix|..] == suffix
  }

  /** `pat` occurs in `s` starting at index `i`. */
  predicate OccursAt(s: string, pat: string, i: int) {
    0 <= i && i + |pat| <= |s| && s[i..i + |pat|] == pat
  }

  /** `i` is the first index at which `pat` occurs in `s`. */
  predicate FirstAt(s: string, pat: string, i: int) {
    OccursAt(s, pat, i) && forall j :: 0 <= j < i ==> !OccursAt(s, pat, j)
  }

  /** When `pat` does not start `s`, its occurrences in `s` are those in
      `s[1..]`, one index further on. */
  lemma ShiftOccurrences(s: string, pat: string)
    requires 0 < |pat| <= |s| && s[..|pat|] != pat
    ensures forall i :: OccursAt(s, pat, i) ==> i >= 1 && OccursAt(s[1..], pat, i - 1)
    ensures forall j :: FirstAt(s[1..], pat, j) ==>
              && FirstAt(s, pat, j + 1)
              && [s[0]] + (s[1..][..j] + s[1..][j + |pat|..]) == s[..j + 1] + s[j + 1 + |pat|..]
  {
    forall i | OccursAt(s, pat, i)
      ensures i >= 1 && OccursAt(s[1..], pat, i - 1)
    {
      assert i != 0;
      assert s[1..][i - 1..i - 1 + |pat|] == s[i..i + |pat|];
    }
    forall j | FirstAt(s[1..], pat, j)
      ensures FirstAt(s, pat, j + 1)
      ensures [s[0]] + (s[1..][..j] + s[1..][j + |pat|..]) == s[..j + 1] + s[j + 1 + |pat|..]
    {
      assert s[j + 1..j + 1 + |pat|] == s[1..][j..j + |pat|];
      forall k | 0 <= k < j + 1
        ensures !OccursAt(s, pat, k)
      {
        if k > 0 {
          assert !OccursAt(s[1..], pat, k - 1);
          if k + |pat| <= |s| {
            assert s[1..][k - 1..k - 1 + |pat|] == s[k..k + |pat|];
          }
        }
      }
      assert s[..j + 1] == [s[0]] + s[1..][..j];
      assert s[j + 1 + |pat|..] == s[1..][j + |pat|..];
    }
  }

  /** `s.replace(pat, '')`: removes the first occurrence of `pat`, if any,
      and keeps everything around it. */
  function RemoveFirst(s: string, pat: string): (r: string)
    requires |pat| > 0
    ensures |r| == |s| || |r| + |pat| == |s|
    ensures |r| == |s| ==> r == s
    ensures (forall i :: !OccursAt(s, pat, i)) ==> r == s
    ensures (exists i :: OccursAt(s, pat, i)) ==>
              exists i :: FirstAt(s, pat, i) && r == s[..i] + s[i + |pat|..]
    decreases |s|
  {
    if |s| < |pat| then s
    else if s[..|pat|] == pat then
      assert FirstAt(s, pat, 0);
      s[|pat|..]
    else
      ShiftOccurrences(s, pat);
      [s[0]] + RemoveFirst(s[1..], pat)
  }

  /** Removing a pattern from a string that ends in it takes off exactly that
      suffix, provided nothing before it can start an earlier occurrence. */
  lemma {:induction false} RemoveFirstOfSuffix(s: string, pat: string)
    requires |pat| > 0
    requires forall i :: 0 <= i < |s| ==> s[i] != pat[0]
    ensures RemoveFirst(s + pat, pat) == s
    decreases |s|
  {
    if |s| == 0 {
      assert s + pat == pat;
    } else {
      assert (s + pat)[0] == s[0];
      assert (s + pat)[..|pat|] != pat by {
        assert (s + pat)[..|pat|][0] == s[0];
      }
      assert (s + pat)[1..] == s[1..] + pat;
      RemoveFirstOfSuffix(s[1..], pat);
      assert [s[0]] + s[1..] == s;
    }
  }

  /** ASCII lower-casing, the part of the `i` regex flag the direction names need. */
  function Lower(c: char): char {
    if 'A' <= c <= 'Z' then (c as int - 'A' as int + 'a' as int) as char else c
  }

  function LowerAll(s: string): (r: string)
    ensures |r| == |s|
    ensures forall i :: 0 <= i < |s| ==> r[i] == Lower(s[i])
  {
    seq(|s|, i requires 0 <= i < |s| => Lower(s[i]))
  }

  /** `pat` (lower case) occurs in `s` at index `i`, ignoring case. */
  predicate MatchAt(s: string, pat: string, i: int) {
    0 <= i <= |s| - |pat| && LowerAll(s[i..i + |pat|]) == pat
  }

  /** `new RegExp(pat, 'i').test(s)` for a lower-case literal pattern `pat`. */
  predicate ContainsIgnoringCase(s: string, pat: string) {
    exists i :: 0 <= i <= |s| - |pat| && MatchAt(s, pat, i)
  }
}
